=== FILE: README.md ===
# ABI packing engine (`src/packer.ts`) in Dafny

This project models the packing engine of the `abi` TypeScript library: the
part that lays out a list of typed values in the head/tail form of the
Solidity Contract ABI Specification ("Formal Specification of the Encoding")
and reads them back. Static values are written in place in a static (head)
region. Each dynamic value is appended to a dynamic (tail) region and leaves
a 32-byte pointer word in the head.

The per-type codecs are outside the engine. They are modelled as values of
`Registry.Parser<V>`, whose `encode`, `decode`, `isDynamic` and `isType`
fields are functions. A registry maps each of the nine parser kinds to one
such parser. The engine's guarantees are proved for every registry that meets
the parser contract (`Registry.Conforming`):

- `encode` only appends;
- a static encoding is one word;
- `decode` recovers a value from any window that starts with its encoding,
  whatever `skip` is.

The fixed-size head (`RoundTrip.WalkLayout`, `RoundTrip.PackedSize`) needs
only the first two (`Registry.HeadWords`). The length invariant (the output
of `pack` is a whole number of words) needs none of the last two: it holds
for every registry whose parsers only append (`Registry.Appending`) and
append whole words (`Registry.WordAligned`), multi-word static encodings
included.

`StandIn` gives a concrete registry that meets the contract. It has a
uint256-like static parser and a bytes-like dynamic parser: a length word,
then the data, zero-padded to a word boundary.

Files:

- `words.dfy`: bytes, 32-byte big-endian words, and the pointer word written
  and read back (`toBuffer` / `toNumber`).
- `registry.dfy`: parser kinds, registration order, `getParser`,
  `isDynamicParser`, and the parser contract.
- `packer.dfy`: `pack`. There is one pass over the types (`Step`, `Walk`).
  Deferred pointer patches are records `Patch(staticOffset, dynOffset)`,
  not closures. The patch pass is `ApplyAll`, and the `Pack` method has both
  loops.
- `unpacker.dfy`: `unpack`, with an explicit word cursor (`Element`,
  `UnpackPrefix`, and the `Unpack` method).
- `roundtrip.dfy`: where the pointers land, and `unpack` of the output of
  `pack` giving back the values.
- `standin.dfy`: the stand-in registry and its conformance.

## Model

| member | source | states |
|---|---|---|
| Registry.Key | src/packer.ts:13-23 | no contract of its own: the key each kind is registered under in the object literal; `Registry.KeyInjective` states that no two kinds share a key |
| Registry.KeyInjective | src/packer.ts:13-23 | two kinds with the same key are the same kind, so a key lookup finds at most one parser |
| Registry.Accepts | src/packer.ts:29 | no contract of its own: `parser.isType?.(type)`, false for a parser without `isType`; `Registry.FirstAccepting` and `Registry.GetParserResolution` state how it decides resolution |
| Registry.LookupKey | src/packer.ts:25-27 | a found kind is registered under exactly the type string; no kind is found only when no key equals it |
| Registry.FirstAccepting | src/packer.ts:29 | the index found is the first in registration order whose `isType` accepts the type; none is found only when no parser accepts it |
| Registry.GetParser | src/packer.ts:12-35 | the only error is "type not supported", for that type string |
| Registry.GetParserResolution | src/packer.ts:12-35 | a registered key resolves to its own parser; otherwise the result is an accepting parser, and no parser earlier in registration order accepts; resolution fails exactly when no key matches and no parser accepts |
| Registry.IsDynamicParser | src/packer.ts:45-52 | a predicate `isDynamic` is applied to the type string; a boolean one is returned unchanged |
| Registry.Rank | src/packer.ts:13-23 | every kind has its own position in `Registration`, the order of the object literal that `Object.values` follows |
| Packer.Step | src/packer.ts:77-108 | no contract of its own: the `reduce` callback, with a thrown error as `Err`; `Packer.StepEffect` states both branches against the old state |
| Packer.Walk | src/packer.ts:76-110 | no contract of its own: the element `reduce`, stopping at the first failure; `Packer.WalkFailureSticks`, `Packer.WalkPatchesPlaced` and `RoundTrip.WalkMonotone` state its behaviour |
| Packer.ApplyAll | src/packer.ts:112 | no contract of its own: the patch `reduce`, in recorded order; `Packer.ApplyAllAt`, `Packer.ApplyAllLength` and `Packer.PatchOrderIrrelevant` state its behaviour |
| Packer.PackSpec | src/packer.ts:71-115 | no contract of its own: the length check, the element pass, the patch pass and the concatenation; `Packer.Pack` is proved equal to it, and `Packer.PrefixNonInterference`, `Packer.PackFirstFailure`, `Packer.PackedPointers` and `RoundTrip.PackedAligned` state its behaviour |
| Packer.ApplyPatch | src/packer.ts:95-101 | a patch whose slot is inside the buffer keeps its length, writes the pointer word (buffer length plus dynamic offset) into its slot, and leaves every other byte unchanged |
| Packer.Pack | src/packer.ts:71-115 | the result is the specification `PackSpec`: a length mismatch is reported before any parser is looked up; otherwise the first failing element's error, or `prefix ++ patched static ++ dynamic`; the loop invariant ties each step to `Walk` and the patch loop to `ApplyAll` |
| Packer.PrefixNonInterference | src/packer.ts:114 | the prefix changes neither success nor the error; on success the output starts with the prefix, and the rest is the output without a prefix |
| Packer.StepEffect | src/packer.ts:81-106 | a static element only appends its encoding to the static region; a dynamic one appends exactly one zero word to the static region and appends its encoding to the dynamic region; it also appends exactly one patch, at the old static length and the old dynamic length |
| Packer.WalkFailureSticks | src/packer.ts:76-110 | once an element fails, the pass reports that failure |
| Packer.PackFirstFailure | src/packer.ts:76-93 | when the elements before `j` pass, an unresolvable type at `j` makes `pack` report "not supported" for that type, whatever follows it; a failing `encode` of element `j`, on the region its classification picks, is passed on as `pack`'s error unchanged |
| Packer.WalkPatchesPlaced | src/packer.ts:89-106 | throughout the pass, patch slots are a word or more apart and in increasing order; they lie inside the static region, and dynamic offsets lie inside the dynamic region |
| Packer.SpacedDisjoint | src/packer.ts:89-106 | patches spaced a word apart overwrite disjoint words |
| Packer.ApplyAllAt | src/packer.ts:112 | the patch pass keeps the length; a byte no patch covers is unchanged; a covered byte holds its patch's pointer word |
| Packer.ApplyAllLength | src/packer.ts:112 | patches whose slots lie inside the buffer keep its length |
| Packer.PatchedWord | src/packer.ts:112 | after the patch pass, a patch's slot holds its pointer word |
| Packer.PatchedSlots | src/packer.ts:112 | after the patch pass, every slot holds the final static length plus its dynamic offset, as a big-endian word |
| Packer.PackedPointers | src/packer.ts:89-112 | for a whole `pack`, every recorded patch's slot holds the final static length plus the dynamic offset recorded with it (which `StepEffect` shows is the dynamic length before the patch's element) |
| Packer.PatchOrderIrrelevant | src/packer.ts:112 | applying the same set of disjoint patches in any order or multiplicity gives the same bytes |
| Unpacker.FirstWord | src/packer.ts:133 | `value.subarray(0, 32)`: a prefix of the window, one word long, or the whole window when it is shorter |
| Unpacker.From | src/packer.ts:134 | `buffer.subarray(pointer)`: the bytes after the first `pointer` bytes, empty when the pointer is past the end |
| Unpacker.Element | src/packer.ts:121-139 | no contract of its own: the `map` callback at cursor word `i`; `Unpacker.UnpackedAt` and `Unpacker.UnpackFirstFailure` state its behaviour |
| Unpacker.UnpackSpec | src/packer.ts:117-141 | no contract of its own: `unpack` as the first `|types|` elements; `Unpacker.Unpack` is proved equal to it, and `Unpacker.UnpackFirstFailure` and `RoundTrip.PackUnpackRoundTrip` state its behaviour |
| Unpacker.UnpackPrefix | src/packer.ts:120-140 | a successful decode of the first `n` types has exactly `n` values |
| Unpacker.Unpack | src/packer.ts:117-141 | the result is `UnpackSpec`; on success it has one value per type, and every type had a word of the buffer under the cursor |
| Unpacker.UnpackFailureSticks | src/packer.ts:120-140 | once an element fails, `unpack` reports that failure |
| Unpacker.UnpackFirstFailure | src/packer.ts:124-139 | after a decoded prefix, an exhausted cursor gives "out of range" whatever the type (the range check comes before parser resolution); a cursor in range with an unresolvable type gives "not supported" for that type; a failing `decode` of element `j`, on the pointer target for a dynamic type or the cursor window for a static one, is passed on as `unpack`'s error unchanged |
| Unpacker.UnpackedAt | src/packer.ts:120-140 | when `unpack` succeeds, the i-th type decoded at cursor word i, and the i-th value is that element's: one value per type, in order |
| Unpacker.UnpackWhenAllDecode | src/packer.ts:120-140 | when every type decodes at its own cursor word, `unpack` succeeds |
| Words.ToWord | src/packer.ts:98 | the pointer word is 32 bytes |
| Words.ToWordBigEndian | src/packer.ts:98 | the pointer word is the 32-byte big-endian form of the number |
| Words.WordRoundTrip | src/packer.ts:133 | reading back a pointer word gives the number written, for every number below 2^256 |
| Words.FromToBytes | src/packer.ts:133 | reading back a big-endian encoding of a number that fits gives the number |
| Words.ToFromBytes | src/packer.ts:133 | writing back the number a byte string denotes gives the same bytes |
| Words.Zeros | src/packer.ts:92 | the placeholder is `n` bytes, all zero |
| RoundTrip.WalkMonotone | src/packer.ts:76-110 | the static region, the dynamic region and the patch list only grow during the pass |
| RoundTrip.WalkLayout | src/packer.ts:81-106 | with parsers that only append and write one word per static value, the static region has one word per element, and every patch sits on the word of a dynamic element |
| RoundTrip.PackedSize | src/packer.ts:114 | with the same parsers, the output is the prefix, one word per element, and the dynamic region |
| RoundTrip.WalkBothAligned | src/packer.ts:81-106 | with parsers that only append and append whole words, the static and the dynamic region are each a whole number of words after every element, whatever the width of a static encoding |
| RoundTrip.PackedAligned | src/packer.ts:114 | length invariant: with parsers that only append and append whole words, `pack` adds a whole number of words to the prefix, so without a prefix its length is a multiple of 32 |
| RoundTrip.DynamicElementPatched | src/packer.ts:89-106 | a dynamic element records the patch for its own word, that patch survives to the end, and its encoding stays where it was appended |
| RoundTrip.SlotReadsBack | src/packer.ts:98 | in `patched static ++ dynamic`, a slot reads back as its pointer, and the output from the pointer on is the dynamic region from the patch's offset on |
| RoundTrip.PackedIsRegions | src/packer.ts:114 | helper: with an empty prefix, the output is the patched static region followed by the dynamic region |
| RoundTrip.PointerLandsOnEncoding | src/packer.ts:89-101 | the word of dynamic element `e` reads back as one word per element plus the dynamic length before `e`, and the output from there starts with `e`'s encoding |
| RoundTrip.PointerInRegions | src/packer.ts:98 | the same fact stated on the regions alone |
| RoundTrip.PatchesMissStatic | src/packer.ts:81-106 | helper for the static round trip: no patch overlaps the word of a static element |
| RoundTrip.StaticInRegions | src/packer.ts:81-87 | a static word that no patch overlaps reaches the output unchanged |
| RoundTrip.WordsApart | src/packer.ts:90 | helper for the static round trip: two word-aligned slot offsets of different elements do not overlap |
| RoundTrip.StaticElementRoundTrip | src/packer.ts:139 | a static element decodes from its own word of the output to the value packed |
| RoundTrip.DynamicElementRoundTrip | src/packer.ts:132-136 | a dynamic element decodes, from where its pointer leads, to the value packed |
| RoundTrip.ElementRoundTrip | src/packer.ts:129-139 | every element of the packed output decodes to the value packed for it |
| RoundTrip.PackUnpackRoundTrip | src/packer.ts:71-141 | with conforming parsers, `unpack(types, pack(types, values)) == values` whenever `pack` succeeds and its output is below 2^256 bytes |
| StandIn.Padding | src/parsers/bytes.test.ts:7-8 | the padding is less than a word and brings the length to a word boundary |
| StandIn.NumberConforms | src/packer.ts:83 | the uint256-like parser only appends, writes one word, and decodes what it wrote |
| StandIn.BytesConforms | src/parsers/bytes.test.ts:7-8 | the length-prefixed, padded byte-string parser only appends and decodes what it wrote |
| StandIn.SampleConforming | src/packer.ts:83-93 | the stand-in registry meets the parser contract |
| StandIn.SampleKeyResolution | src/packer.ts:25-27 | example on one input: "bytes" resolves to the bytes parser by key |
| StandIn.SampleFallbackResolution | src/packer.ts:29-32 | example on one input: "uint256" is no key and resolves to the first parser whose `isType` accepts it |
| StandIn.SampleUnsupported | src/packer.ts:34 | example on one input: "int8" is not supported by the stand-in registry |
| StandIn.SampleRoundTrip | src/packer.ts:71-141 | with the stand-in registry, `unpack` inverts `pack` |
| StandIn.SampleWordAligned | src/parsers/bytes.test.ts:7-8 | both stand-in parsers append whole words; the bytes parser pads its data to a word boundary |
| StandIn.SamplePackedAligned | src/packer.ts:114 | with the stand-in registry, every successful `pack` output is a whole number of words |

## Left out

- `src/iterator.ts` (`iterate`) is not part of this model. The cursor
  assumes that at word `i` the iterator yields the rest of the buffer from
  byte `32 * i`, with `skip = i`, and that it is done once `32 * i` reaches
  the buffer's length.
- `src/utils` (`concat`, `toBuffer`, `toNumber`) is not part of this model.
  `toBuffer(n)` is taken to be the 32-byte big-endian form of `n` modulo
  2^256. `toNumber` is taken to be the big-endian value of its (at most 32)
  bytes. `subarray` clamps out-of-range offsets, as typed arrays do.
- The per-type codecs under `src/parsers/` are not part of this model. Their
  byte layouts and `isType` grammars are parameters of the registry. The
  stand-in parsers are illustrations that meet the contract. Their decoding
  is not the library's own bytes decoder, which follows a pointer itself.
- Unpacker.Unpack: the cursor advances one word per type, as the code does.
  A codec-width-dependent advance for multi-word static values is not
  modelled. Because of this, the round trip is proved only for registries
  whose static encodings are one word (`SingleWordStatic`).
- RoundTrip.PackedAligned: the length invariant is proved only for parsers
  that append whole words. Whether the library's own codecs do so depends on
  their byte layouts, which are not part of this model.
- Registry.SelfDelimiting asks `decode` to recover a value whatever `skip`
  is. The engine passes the cursor's word index as `skip` (src/packer.ts:136
  and 139), so container codecs whose decoding reads `skip` fall outside the
  round trip's assumption.
- RoundTrip.PackUnpackRoundTrip: requires the output to be shorter than
  2^256 bytes, so that every pointer fits in a word.
- `Number(...)` at src/packer.ts:133 loses precision on pointers above 2^53.
  The model keeps the pointer as an unbounded natural number.
- `parsers[type]` at src/packer.ts:25 can also find keys inherited from
  `Object.prototype`. That JavaScript quirk is not modelled: lookup is over
  the nine registered keys only.
- Exceptions become `Result` values. The exact error message strings are
  replaced by the `Error` datatype.
- Values are of one type parameter `V` per registry, instead of
  JavaScript's `unknown`.

=== FILE: packer.dfy ===
/** `pack` of `src/packer.ts`: one left-to-right pass that builds a static
    region, a dynamic region and a list of deferred pointer patches, then
    applies the patches and concatenates prefix, static and dynamic regions. */
module Packer {
  import opened Words
  import opened Registry

  /** A deferred pointer fix for one dynamic element: the byte offset of its
      pointer slot in the static region, and the length the dynamic region
      had before the element's encoding was appended to it. */
  datatype Patch = Patch(staticOffset: nat, dynOffset: nat)

  /** The accumulator threaded through the pass. */
  datatype PackState = PackState(staticBuf: seq<byte>, dynamicBuf: seq<byte>, patches: seq<Patch>)

  const Empty := PackState([], [], [])

  /** One element of the pass: a static element is encoded onto the static
      region; a dynamic one leaves a zero word in the static region, is
      encoded onto the dynamic region, and records a patch. */
  function Step<V>(reg: Registry<V>, st: PackState, typ: string, value: V): Result<PackState>
  {
    match GetParser(reg, typ)
    case Err(e) => Err(e)
    case Ok(k) =>
      if !IsDynamicParser(reg(k), typ) then
        match reg(k).encode(st.staticBuf, value, typ)
        case Err(e) => Err(e)
        case Ok(s) => Ok(PackState(s, st.dynamicBuf, st.patches))
      else
        match reg(k).encode(st.dynamicBuf, value, typ)
        case Err(e) => Err(e)
        case Ok(d) =>
          Ok(PackState(st.staticBuf + Zeros(WORD), d,
                       st.patches + [Patch(|st.staticBuf|, |st.dynamicBuf|)]))
  }

  /** The state after the first `n` elements, or the first failure. */
  function Walk<V>(reg: Registry<V>, types: seq<string>, values: seq<V>, n: nat): Result<PackState>
    requires n <= |types| && n <= |values|
  {
    if n == 0 then Ok(Empty)
    else match Walk(reg, types, values, n - 1)
      case Err(e) => Err(e)
      case Ok(st) => Step(reg, st, types[n - 1], values[n - 1])
  }

  /** One patch: the word at `staticOffset` is replaced by the big-endian
      value of the buffer's length plus `dynOffset`. Offsets past the end are
      clamped, as `subarray` does. */
  function ApplyPatch(buf: seq<byte>, p: Patch): (r: seq<byte>)
    ensures p.staticOffset + WORD <= |buf| ==>
              |r| == |buf| &&
              r[p.staticOffset..p.staticOffset + WORD] == ToWord(|buf| + p.dynOffset) &&
              forall i :: 0 <= i < |buf| && !Covers(p, i) ==> r[i] == buf[i]
  {
    var lo := if p.staticOffset <= |buf| then p.staticOffset else |buf|;
    var hi := if p.staticOffset + WORD <= |buf| then p.staticOffset + WORD else |buf|;
    buf[..lo] + ToWord(|buf| + p.dynOffset) + buf[hi..]
  }

  /** Byte `i` lies in the word a patch overwrites. */
  predicate Covers(p: Patch, i: int)
  {
    p.staticOffset <= i < p.staticOffset + WORD
  }

  /** The patches applied one after another, in recorded order. */
  function ApplyAll(buf: seq<byte>, ps: seq<Patch>): seq<byte>
  {
    if ps == [] then buf else ApplyPatch(ApplyAll(buf, ps[..|ps| - 1]), ps[|ps| - 1])
  }

  /** The result of `pack(types, values, prefix)`. */
  function PackSpec<V>(reg: Registry<V>, types: seq<string>, values: seq<V>, prefix: seq<byte>): Result<seq<byte>>
  {
    if |types| != |values| then Err(LengthMismatch)
    else match Walk(reg, types, values, |types|)
      case Err(e) => Err(e)
      case Ok(st) => Ok(prefix + ApplyAll(st.staticBuf, st.patches) + st.dynamicBuf)
  }

  /** `pack`: the length check, the pass over the elements, the patch pass,
      and the concatenation. The prefix is only put in front: pointers do not
      count it. */
  method Pack<V>(reg: Registry<V>, types: seq<string>, values: seq<V>, prefix: seq<byte>)
    returns (r: Result<seq<byte>>)
    ensures r == PackSpec(reg, types, values, prefix)
    ensures |types| != |values| ==> r == Err(LengthMismatch)
  {
    if |types| != |values| {
      return Err(LengthMismatch);
    }
    var staticBuf, dynamicBuf, patches := [], [], [];
    for i := 0 to |types|
      invariant Walk(reg, types, values, i) == Ok(PackState(staticBuf, dynamicBuf, patches))
    {
      var typ := types[i];
      var kind;
      match GetParser(reg, typ) {
        case Err(e) =>
          WalkFailureSticks(reg, types, values, i + 1, |types|);
          return Err(e);
        case Ok(k) => kind := k;
      }
      var parser := reg(kind);
      if !IsDynamicParser(parser, typ) {
        match parser.encode(staticBuf, values[i], typ) {
          case Err(e) =>
          WalkFailureSticks(reg, types, values, i + 1, |types|);
          return Err(e);
          case Ok(s) => staticBuf := s;
        }
      } else {
        var offset := |dynamicBuf|;
        var staticOffset := |staticBuf|;
        var newStatic := staticBuf + Zeros(WORD);
        match parser.encode(dynamicBuf, values[i], typ) {
          case Err(e) =>
          WalkFailureSticks(reg, types, values, i + 1, |types|);
          return Err(e);
          case Ok(d) => dynamicBuf := d;
        }
        staticBuf := newStatic;
        patches := patches + [Patch(staticOffset, offset)];
      }
    }
    var updated := staticBuf;
    for j := 0 to |patches|
      invariant updated == ApplyAll(staticBuf, patches[..j])
    {
      assert patches[..j + 1][..j] == patches[..j];
      updated := ApplyPatch(updated, patches[j]);
    }
    assert patches[..|patches|] == patches;
    r := Ok(prefix + updated + dynamicBuf);
  }

  /** The prefix is put in front of the output and changes nothing else:
      the same elements fail, and otherwise `pack(types, values, prefix)`
      with its first `|prefix|` bytes removed is `pack(types, values)`. */
  lemma PrefixNonInterference<V>(reg: Registry<V>, types: seq<string>, values: seq<V>, prefix: seq<byte>)
    ensures PackSpec(reg, types, values, prefix).Ok? <==> PackSpec(reg, types, values, []).Ok?
    ensures PackSpec(reg, types, values, prefix).Err? ==>
              PackSpec(reg, types, values, prefix) == PackSpec(reg, types, values, [])
    ensures PackSpec(reg, types, values, prefix).Ok? ==>
              PackSpec(reg, types, values, prefix).value[..|prefix|] == prefix &&
              PackSpec(reg, types, values, prefix).value[|prefix|..] == PackSpec(reg, types, values, []).value
  {
    if |types| == |values| && Walk(reg, types, values, |types|).Ok? {
      var st := Walk(reg, types, values, |types|).value;
      var body := ApplyAll(st.staticBuf, st.patches) + st.dynamicBuf;
      assert prefix + ApplyAll(st.staticBuf, st.patches) + st.dynamicBuf == prefix + body;
      assert [] + ApplyAll(st.staticBuf, st.patches) + st.dynamicBuf == body;
    }
  }

  /** The first element that fails decides the outcome of `pack`: when the
      elements before `j` pass and the type at `j` resolves to no parser,
      `pack` reports that type as unsupported (whatever comes after it); when
      it resolves but its parser's `encode` fails on the region its
      classification picks, `pack` passes that error on unchanged. */
  lemma PackFirstFailure<V>(reg: Registry<V>, types: seq<string>, values: seq<V>, prefix: seq<byte>, j: nat)
    requires |types| == |values| && j < |types|
    requires Walk(reg, types, values, j).Ok?
    ensures GetParser(reg, types[j]).Err? ==>
              PackSpec(reg, types, values, prefix) == Err(UnsupportedType(types[j]))
    ensures var st := Walk(reg, types, values, j).value;
      var typ, v := types[j], values[j];
      GetParser(reg, typ).Ok? ==>
        var p := reg(GetParser(reg, typ).value);
        var region := if IsDynamicParser(p, typ) then st.dynamicBuf else st.staticBuf;
        p.encode(region, v, typ).Err? ==>
          PackSpec(reg, types, values, prefix) == Err(p.encode(region, v, typ).error)
  {
    if Walk(reg, types, values, j + 1).Err? {
      WalkFailureSticks(reg, types, values, j + 1, |types|);
    }
  }

  // Where the patches sit.

  /** Patch slots come in increasing order, a word or more apart. */
  ghost predicate Spaced(ps: seq<Patch>)
  {
    forall a, b :: 0 <= a < b < |ps| ==> ps[a].staticOffset + WORD <= ps[b].staticOffset
  }

  /** Every patch slot lies inside a buffer of length `len`. */
  ghost predicate InBounds(ps: seq<Patch>, len: nat)
  {
    forall p :: p in ps ==> p.staticOffset + WORD <= len
  }

  /** Distinct patches overwrite disjoint words. */
  ghost predicate Disjoint(ps: seq<Patch>)
  {
    forall p, q :: p in ps && q in ps && p != q ==>
      p.staticOffset + WORD <= q.staticOffset || q.staticOffset + WORD <= p.staticOffset
  }

  lemma SpacedDisjoint(ps: seq<Patch>)
    requires Spaced(ps)
    ensures Disjoint(ps)
  {
    forall p, q | p in ps && q in ps && p != q
      ensures p.staticOffset + WORD <= q.staticOffset || q.staticOffset + WORD <= p.staticOffset
    {
      var a :| 0 <= a < |ps| && ps[a] == p;
      var b :| 0 <= b < |ps| && ps[b] == q;
    }
  }

  /** One element's effect on the state: a static element only appends its
      encoding to the static region; a dynamic element appends exactly one
      zero word to the static region, appends its encoding to the dynamic
      region and appends exactly one patch, pointing at the slot it left and
      at where its encoding begins. */
  lemma StepEffect<V(!new)>(reg: Registry<V>, st: PackState, typ: string, value: V)
    requires Appending(reg)
    requires Step(reg, st, typ, value).Ok?
    ensures GetParser(reg, typ).Ok?
    ensures var st' := Step(reg, st, typ, value).value;
      var k := GetParser(reg, typ).value;
      if !IsDynamicParser(reg(k), typ) then
        reg(k).encode(st.staticBuf, value, typ) == Ok(st'.staticBuf) &&
        st.staticBuf <= st'.staticBuf && st'.dynamicBuf == st.dynamicBuf && st'.patches == st.patches
      else
        st'.staticBuf == st.staticBuf + Zeros(WORD) &&
        reg(k).encode(st.dynamicBuf, value, typ) == Ok(st'.dynamicBuf) &&
        st.dynamicBuf <= st'.dynamicBuf &&
        st'.patches == st.patches + [Patch(|st.staticBuf|, |st.dynamicBuf|)]
  {
    var k := GetParser(reg, typ).value;
    assert AppendOnly(reg(k));
    if !IsDynamicParser(reg(k), typ) {
      assert reg(k).encode(st.staticBuf, value, typ).Ok?;
    } else {
      assert reg(k).encode(st.dynamicBuf, value, typ).Ok?;
    }
  }

  /** Throughout the pass the patches are spaced, their slots lie inside the
      static region, and their dynamic offsets inside the dynamic region. */
  lemma {:induction false} WalkPatchesPlaced<V(!new)>(reg: Registry<V>, types: seq<string>, values: seq<V>, n: nat)
    requires Appending(reg)
    requires n <= |types| && n <= |values|
    requires Walk(reg, types, values, n).Ok?
    ensures var st := Walk(reg, types, values, n).value;
      Spaced(st.patches) && InBounds(st.patches, |st.staticBuf|) &&
      forall p :: p in st.patches ==> p.dynOffset <= |st.dynamicBuf|
  {
    if n > 0 {
      WalkPatchesPlaced(reg, types, values, n - 1);
      var st := Walk(reg, types, values, n - 1).value;
      StepEffect(reg, st, types[n - 1], values[n - 1]);
    }
  }

  /** Applying patches keeps the length; a byte that no patch covers keeps
      its value; a byte a patch covers holds that patch's pointer word. */
  lemma {:induction false} ApplyAllAt(buf: seq<byte>, ps: seq<Patch>, i: nat)
    requires InBounds(ps, |buf|) && Disjoint(ps)
    requires i < |buf|
    ensures |ApplyAll(buf, ps)| == |buf|
    ensures (forall p :: p in ps ==> !Covers(p, i)) ==> ApplyAll(buf, ps)[i] == buf[i]
    ensures forall p :: p in ps && Covers(p, i) ==>
              ApplyAll(buf, ps)[i] == ToWord(|buf| + p.dynOffset)[i - p.staticOffset]
  {
    if ps != [] {
      var init, last := ps[..|ps| - 1], ps[|ps| - 1];
      assert forall p :: p in init ==> p in ps;
      ApplyAllAt(buf, init, i);
      var before := ApplyAll(buf, init);
      assert ApplyAll(buf, ps) == ApplyPatch(before, last);
      if Covers(last, i) {
        assert ApplyAll(buf, ps)[i] == ApplyPatch(before, last)[last.staticOffset..last.staticOffset + WORD][i - last.staticOffset];
        forall p | p in ps && Covers(p, i)
          ensures p == last
        {
        }
      } else {
        forall p | p in ps && Covers(p, i)
          ensures p in init
        {
          assert ps == init + [last];
        }
      }
    }
  }

  /** After the patch pass, the word at every patch slot holds the final
      static length plus the patch's dynamic offset. */
  lemma PatchedWord(buf: seq<byte>, ps: seq<Patch>, p: Patch)
    requires InBounds(ps, |buf|) && Disjoint(ps)
    requires p in ps
    ensures |ApplyAll(buf, ps)| == |buf|
    ensures ApplyAll(buf, ps)[p.staticOffset..p.staticOffset + WORD] == ToWord(|buf| + p.dynOffset)
  {
    ApplyAllLength(buf, ps);
    var out := ApplyAll(buf, ps);
    var w := ToWord(|buf| + p.dynOffset);
    forall i | p.staticOffset <= i < p.staticOffset + WORD
      ensures out[i] == w[i - p.staticOffset]
    {
      ApplyAllAt(buf, ps, i);
    }
    assert out[p.staticOffset..p.staticOffset + WORD] == w;
  }

  /** Every patch slot lies inside `buf`, and after the patch pass holds
      the length of `buf` plus the patch's dynamic offset. */
  ghost predicate PointersWritten(buf: seq<byte>, ps: seq<Patch>)
  {
    var out := ApplyAll(buf, ps);
    |out| == |buf| && InBounds(ps, |buf|) &&
    forall p :: p in ps ==> out[p.staticOffset..p.staticOffset + WORD] == ToWord(|buf| + p.dynOffset)
  }

  /** Spaced patches inside the buffer each leave their own pointer word. */
  lemma PatchedSlots(buf: seq<byte>, ps: seq<Patch>)
    requires Spaced(ps) && InBounds(ps, |buf|)
    ensures PointersWritten(buf, ps)
  {
    SpacedDisjoint(ps);
    ApplyAllLength(buf, ps);
    forall p | p in ps
      ensures ApplyAll(buf, ps)[p.staticOffset..p.staticOffset + WORD] == ToWord(|buf| + p.dynOffset)
    {
      PatchedWord(buf, ps, p);
    }
  }

  /** After the patch pass of a whole `pack`, the word at each dynamic
      element's slot holds the final static length plus the length the
      dynamic region had before that element: its offset in the output
      after the prefix. */
  lemma PackedPointers<V(!new)>(reg: Registry<V>, types: seq<string>, values: seq<V>)
    requires Appending(reg)
    requires |types| == |values| && Walk(reg, types, values, |types|).Ok?
    ensures PointersWritten(Walk(reg, types, values, |types|).value.staticBuf,
                            Walk(reg, types, values, |types|).value.patches)
  {
    var st := Walk(reg, types, values, |types|).value;
    WalkPatchesPlaced(reg, types, values, |types|);
    PatchedSlots(st.staticBuf, st.patches);
  }

  /** The patch pass does not depend on the order (or repetition) of the
      patches, as long as they are the same patches on disjoint words. */
  lemma PatchOrderIrrelevant(buf: seq<byte>, ps: seq<Patch>, qs: seq<Patch>)
    requires InBounds(ps, |buf|) && Disjoint(ps)
    requires forall p :: p in ps <==> p in qs
    ensures ApplyAll(buf, ps) == ApplyAll(buf, qs)
  {
    assert InBounds(qs, |buf|) && Disjoint(qs);
    ApplyAllLength(buf, ps);
    ApplyAllLength(buf, qs);
    var a, b := ApplyAll(buf, ps), ApplyAll(buf, qs);
    forall i | 0 <= i < |buf|
      ensures a[i] == b[i]
    {
      ApplyAllAt(buf, ps, i);
      ApplyAllAt(buf, qs, i);
    }
  }

  /** Patches inside the buffer keep its length. */
  lemma {:induction false} ApplyAllLength(buf: seq<byte>, ps: seq<Patch>)
    requires InBounds(ps, |buf|)
    ensures |ApplyAll(buf, ps)| == |buf|
  {
    if ps != [] {
      assert forall p :: p in ps[..|ps| - 1] ==> p in ps;
      ApplyAllLength(buf, ps[..|ps| - 1]);
    }
  }

  /** Once a step fails, the pass reports that failure. */
  lemma {:induction false} WalkFailureSticks<V>(reg: Registry<V>, types: seq<string>, values: seq<V>, n: nat, m: nat)
    requires n <= m <= |types| && m <= |values|
    requires Walk(reg, types, values, n).Err?
    ensures Walk(reg, types, values, m) == Walk(reg, types, values, n)
  {
    if m > n {
      WalkFailureSticks(reg, types, values, n, m - 1);
    }
  }
}

=== FILE: registry.dfy ===
/** The parser registry and the dynamic classifier of `src/packer.ts`, and
    the contract every per-type parser must meet to plug into the engine. */
module Registry {
  import opened Words

  /** Why a `pack` or `unpack` call fails. Parsers report their own failures
      as `CodecFailure`, which the engine passes on unchanged. */
  datatype Error =
    | UnsupportedType(typ: string)
    | LengthMismatch
    | OutOfRange
    | CodecFailure(reason: string)

  datatype Result<T> = Ok(value: T) | Err(error: Error)

  datatype Option<T> = None | Some(value: T)

  /** The nine registered parsers. */
  datatype ParserKind =
    Address | Array | Bool | Bytes | FixedBytes | Function | Number | String | Tuple

  /** A parser's `isDynamic`: a plain boolean, or a predicate over the type string. */
  datatype Dynamism = Fixed(dynamic: bool) | ByType(pred: string -> bool)

  /** One per-type codec. `encode` appends a value's encoding to a buffer;
      `decode` reads a value from a byte window, given a `skip` word count;
      `isType` is optional. */
  datatype Parser<!V> = Parser(
    encode: (seq<byte>, V, string) -> Result<seq<byte>>,
    decode: (seq<byte>, string, nat) -> Result<V>,
    isDynamic: Dynamism,
    isType: Option<string -> bool>)

  /** The parser behind each registered kind. */
  type Registry<!V> = ParserKind -> Parser<V>

  /** Registration order, which decides ties between `isType` predicates. */
  const Registration: seq<ParserKind> :=
    [Address, Array, Bool, Bytes, FixedBytes, Function, Number, String, Tuple]

  /** The key each parser is registered under. */
  function Key(k: ParserKind): string
  {
    match k
    case Address => "address"
    case Array => "array"
    case Bool => "bool"
    case Bytes => "bytes"
    case FixedBytes => "fixedBytes"
    case Function => "function"
    case Number => "number"
    case String => "string"
    case Tuple => "tuple"
  }

  /** Position of a kind in registration order. */
  function Rank(k: ParserKind): (i: nat)
    ensures i < |Registration| && Registration[i] == k
  {
    match k
    case Address => 0
    case Array => 1
    case Bool => 2
    case Bytes => 3
    case FixedBytes => 4
    case Function => 5
    case Number => 6
    case String => 7
    case Tuple => 8
  }

  lemma KeyInjective(k: ParserKind, k': ParserKind)
    requires Key(k) == Key(k')
    ensures k == k'
  {
  }

  /** `parser.isType?.(type)`: a parser without `isType` claims nothing. */
  predicate Accepts<V>(p: Parser<V>, typ: string)
  {
    p.isType.Some? && p.isType.value(typ)
  }

  /** The kind in `ks` registered under exactly `typ`, if any. */
  function LookupKey(typ: string, ks: seq<ParserKind>): (r: Option<ParserKind>)
    ensures r.Some? ==> r.value in ks && Key(r.value) == typ
    ensures r.None? ==> forall k :: k in ks ==> Key(k) != typ
  {
    if ks == [] then None
    else if Key(ks[0]) == typ then Some(ks[0])
    else LookupKey(typ, ks[1..])
  }

  /** Index of the first kind in `ks` whose parser accepts `typ`. */
  function FirstAccepting<V>(reg: Registry<V>, typ: string, ks: seq<ParserKind>): (r: Option<nat>)
    ensures r.Some? ==> r.value < |ks| && Accepts(reg(ks[r.value]), typ)
    ensures r.Some? ==> forall j :: 0 <= j < r.value ==> !Accepts(reg(ks[j]), typ)
    ensures r.None? ==> forall j :: 0 <= j < |ks| ==> !Accepts(reg(ks[j]), typ)
  {
    if ks == [] then None
    else if Accepts(reg(ks[0]), typ) then Some(0)
    else match FirstAccepting(reg, typ, ks[1..])
      case None => None
      case Some(i) => Some(i + 1)
  }

  /** `getParser`: the parser registered under `typ`, else the first parser in
      registration order whose `isType` accepts `typ`, else an error. */
  function GetParser<V>(reg: Registry<V>, typ: string): (r: Result<ParserKind>)
    ensures r.Err? ==> r.error == UnsupportedType(typ)
  {
    match LookupKey(typ, Registration)
    case Some(k) => Ok(k)
    case None =>
      match FirstAccepting(reg, typ, Registration)
      case Some(i) => Ok(Registration[i])
      case None => Err(UnsupportedType(typ))
  }

  /** Resolution order of `getParser`: an exact key wins; otherwise the
      result is the earliest-registered parser whose `isType` accepts the
      type string; resolution fails exactly when neither exists. */
  lemma GetParserResolution<V>(reg: Registry<V>, typ: string)
    ensures forall k :: Key(k) == typ ==> GetParser(reg, typ) == Ok(k)
    ensures var r := GetParser(reg, typ);
      (forall k :: Key(k) != typ) && r.Ok? ==>
        Accepts(reg(r.value), typ) &&
        forall j :: 0 <= j < Rank(r.value) ==> !Accepts(reg(Registration[j]), typ)
    ensures GetParser(reg, typ).Err? <==> (forall k :: Key(k) != typ && !Accepts(reg(k), typ))
  {
    match LookupKey(typ, Registration)
    case Some(k) =>
      forall k' | Key(k') == typ
        ensures k' == k
      {
        KeyInjective(k, k');
      }
    case None =>
      match FirstAccepting(reg, typ, Registration)
      case Some(i) =>
        assert Rank(Registration[i]) == i;
      case None =>
        forall k
          ensures !Accepts(reg(k), typ)
        {
          assert Registration[Rank(k)] == k;
        }
  }

  /** `isDynamicParser`: a predicate `isDynamic` is applied to the type
      string; a boolean one is returned as it is. */
  function IsDynamicParser<V>(p: Parser<V>, typ: string): (r: bool)
    ensures p.isDynamic.ByType? ==> r == p.isDynamic.pred(typ)
    ensures p.isDynamic.Fixed? ==> r == p.isDynamic.dynamic
  {
    match p.isDynamic
    case ByType(pred) => pred(typ)
    case Fixed(b) => b
  }

  // The parser contract. The engine's guarantees hold for parsers that meet it.

  /** `encode` only appends: every byte of the buffer it was given stays in place. */
  ghost predicate AppendOnly<V(!new)>(p: Parser<V>)
  {
    forall buf, v, t :: p.encode(buf, v, t).Ok? ==> buf <= p.encode(buf, v, t).value
  }

  /** A static encoding takes exactly one word. */
  ghost predicate SingleWordStatic<V(!new)>(p: Parser<V>)
  {
    forall buf, v, t :: p.encode(buf, v, t).Ok? && !IsDynamicParser(p, t) ==>
      |p.encode(buf, v, t).value| == |buf| + WORD
  }

  /** `decode` recovers a value from any window that begins with the bytes
      `encode` appended for it, whatever follows and whatever `skip` is. */
  ghost predicate SelfDelimiting<V(!new)>(p: Parser<V>)
  {
    forall buf, v, t, w, skip ::
      p.encode(buf, v, t).Ok? && |buf| <= |p.encode(buf, v, t).value| &&
      p.encode(buf, v, t).value[|buf|..] <= w ==>
        p.decode(w, t, skip) == Ok(v)
  }

  /** `encode` appends a whole number of words: a word-aligned buffer stays
      word-aligned. */
  ghost predicate WordMultiple<V(!new)>(p: Parser<V>)
  {
    forall buf, v, t :: p.encode(buf, v, t).Ok? ==> |p.encode(buf, v, t).value| % WORD == |buf| % WORD
  }

  /** Every parser of the registry only appends. */
  ghost predicate Appending<V(!new)>(reg: Registry<V>)
  {
    forall k :: AppendOnly(reg(k))
  }

  /** Every parser of the registry only appends and writes one word per
      static value: what fixes the size of the head. */
  ghost predicate HeadWords<V(!new)>(reg: Registry<V>)
  {
    forall k :: AppendOnly(reg(k)) && SingleWordStatic(reg(k))
  }

  /** Every parser of the registry meets the whole contract. */
  ghost predicate Conforming<V(!new)>(reg: Registry<V>)
  {
    forall k :: AppendOnly(reg(k)) && SingleWordStatic(reg(k)) && SelfDelimiting(reg(k))
  }

  /** Every parser of the registry appends whole words. */
  ghost predicate WordAligned<V(!new)>(reg: Registry<V>)
  {
    forall k :: WordMultiple(reg(k))
  }
}

=== FILE: roundtrip.dfy ===
/** What `unpack` gives back on the output of `pack`: with parsers that meet
    the parser contract, each dynamic element's pointer lands on its
    encoding, each static element sits at its own word, and the values come
    back unchanged. */
module RoundTrip {
  import opened Words
  import opened Registry
  import opened Packer
  import opened Unpacker

  /** Element `e` resolves to a parser that classifies it as dynamic. */
  predicate IsDynamicAt<V>(reg: Registry<V>, types: seq<string>, e: nat)
    requires e < |types|
  {
    GetParser(reg, types[e]).Ok? && IsDynamicParser(reg(GetParser(reg, types[e]).value), types[e])
  }

  lemma ConformingAppends<V(!new)>(reg: Registry<V>)
    requires Conforming(reg)
    ensures Appending(reg)
  {
    forall k ensures AppendOnly(reg(k)) {
      assert AppendOnly(reg(k)) && SingleWordStatic(reg(k)) && SelfDelimiting(reg(k));
    }
  }

  lemma ConformingHeadWords<V(!new)>(reg: Registry<V>)
    requires Conforming(reg)
    ensures HeadWords(reg)
  {
    forall k ensures AppendOnly(reg(k)) && SingleWordStatic(reg(k)) {
      assert AppendOnly(reg(k)) && SingleWordStatic(reg(k)) && SelfDelimiting(reg(k));
    }
  }

  lemma HeadWordsAppend<V(!new)>(reg: Registry<V>)
    requires HeadWords(reg)
    ensures Appending(reg)
  {
    forall k ensures AppendOnly(reg(k)) {
      assert AppendOnly(reg(k)) && SingleWordStatic(reg(k));
    }
  }

  /** A pass that succeeds succeeded on every prefix. */
  lemma WalkPrefixOk<V>(reg: Registry<V>, types: seq<string>, values: seq<V>, e: nat, m: nat)
    requires e <= m <= |types| && m <= |values|
    requires Walk(reg, types, values, m).Ok?
    ensures Walk(reg, types, values, e).Ok?
  {
    if Walk(reg, types, values, e).Err? {
      WalkFailureSticks(reg, types, values, e, m);
    }
  }

  /** The regions and the patch list only grow during the pass. */
  lemma {:induction false} WalkMonotone<V(!new)>(reg: Registry<V>, types: seq<string>, values: seq<V>, e: nat, m: nat)
    requires Appending(reg)
    requires e <= m <= |types| && m <= |values|
    requires Walk(reg, types, values, m).Ok?
    ensures Walk(reg, types, values, e).Ok?
    ensures var se, sm := Walk(reg, types, values, e).value, Walk(reg, types, values, m).value;
      se.staticBuf <= sm.staticBuf && se.dynamicBuf <= sm.dynamicBuf && se.patches <= sm.patches
  {
    WalkPrefixOk(reg, types, values, e, m);
    if e < m {
      WalkPrefixOk(reg, types, values, m - 1, m);
      WalkMonotone(reg, types, values, e, m - 1);
      var st := Walk(reg, types, values, m - 1).value;
      StepEffect(reg, st, types[m - 1], values[m - 1]);
    }
  }

  /** Byte offset `off` is the first byte of the word of a dynamic element
      among the first `m`. */
  predicate DynamicSlot<V>(reg: Registry<V>, types: seq<string>, off: nat, m: nat)
  {
    off % WORD == 0 && off < WORD * m && off / WORD < |types| && IsDynamicAt(reg, types, off / WORD)
  }

  lemma SlotIndex(e: nat)
    ensures (WORD * e) % WORD == 0 && (WORD * e) / WORD == e
  {
  }

  /** With single-word static encodings, the static region holds one word
      per element, and every patch sits on the word of a dynamic element. */
  lemma {:induction false} WalkLayout<V(!new)>(reg: Registry<V>, types: seq<string>, values: seq<V>, m: nat)
    requires HeadWords(reg)
    requires m <= |types| && m <= |values|
    requires Walk(reg, types, values, m).Ok?
    ensures |Walk(reg, types, values, m).value.staticBuf| == WORD * m
    ensures forall p :: p in Walk(reg, types, values, m).value.patches ==>
              DynamicSlot(reg, types, p.staticOffset, m)
  {
    if m > 0 {
      WalkPrefixOk(reg, types, values, m - 1, m);
      WalkLayout(reg, types, values, m - 1);
      var st := Walk(reg, types, values, m - 1).value;
      var st' := Walk(reg, types, values, m).value;
      var typ, v := types[m - 1], values[m - 1];
      assert st' == Step(reg, st, typ, v).value;
      HeadWordsAppend(reg);
      StepEffect(reg, st, typ, v);
      var k := GetParser(reg, typ).value;
      forall p | p in st.patches
        ensures DynamicSlot(reg, types, p.staticOffset, m)
      {
        assert DynamicSlot(reg, types, p.staticOffset, m - 1);
      }
      if !IsDynamicParser(reg(k), typ) {
        assert SingleWordStatic(reg(k));
        assert reg(k).encode(st.staticBuf, v, typ).Ok?;
        assert st'.patches == st.patches;
      } else {
        SlotIndex(m - 1);
        assert DynamicSlot(reg, types, WORD * (m - 1), m);
        assert st'.patches == st.patches + [Patch(WORD * (m - 1), |st.dynamicBuf|)];
      }
    }
  }

  /** With single-word static encodings the output is the prefix, one word
      per element, and the dynamic region: the head has a fixed size. */
  lemma PackedSize<V(!new)>(reg: Registry<V>, types: seq<string>, values: seq<V>, prefix: seq<byte>)
    requires HeadWords(reg)
    requires PackSpec(reg, types, values, prefix).Ok?
    ensures |types| == |values| && Walk(reg, types, values, |types|).Ok?
    ensures |PackSpec(reg, types, values, prefix).value| ==
              |prefix| + WORD * |types| + |Walk(reg, types, values, |types|).value.dynamicBuf|
  {
    var st := Walk(reg, types, values, |types|).value;
    HeadWordsAppend(reg);
    WalkLayout(reg, types, values, |types|);
    WalkPatchesPlaced(reg, types, values, |types|);
    PatchedSlots(st.staticBuf, st.patches);
  }

  /** With parsers that append whole words, both regions stay word-aligned
      throughout the pass, whatever the width of a static encoding. */
  lemma {:induction false} WalkBothAligned<V(!new)>(reg: Registry<V>, types: seq<string>, values: seq<V>, m: nat)
    requires Appending(reg) && WordAligned(reg)
    requires m <= |types| && m <= |values|
    requires Walk(reg, types, values, m).Ok?
    ensures var st := Walk(reg, types, values, m).value;
      |st.staticBuf| % WORD == 0 && |st.dynamicBuf| % WORD == 0
  {
    if m > 0 {
      WalkPrefixOk(reg, types, values, m - 1, m);
      WalkBothAligned(reg, types, values, m - 1);
      var st := Walk(reg, types, values, m - 1).value;
      StepAligned(reg, st, types[m - 1], values[m - 1]);
    }
  }

  /** One element keeps both regions word-aligned. */
  lemma StepAligned<V(!new)>(reg: Registry<V>, st: PackState, typ: string, v: V)
    requires Appending(reg) && WordAligned(reg)
    requires Step(reg, st, typ, v).Ok?
    requires |st.staticBuf| % WORD == 0 && |st.dynamicBuf| % WORD == 0
    ensures var st' := Step(reg, st, typ, v).value;
      |st'.staticBuf| % WORD == 0 && |st'.dynamicBuf| % WORD == 0
  {
    StepEffect(reg, st, typ, v);
    var k := GetParser(reg, typ).value;
    assert WordMultiple(reg(k));
    if IsDynamicParser(reg(k), typ) {
      assert reg(k).encode(st.dynamicBuf, v, typ).Ok?;
      AlignedSum(|st.staticBuf|, 1, 0);
    } else {
      assert reg(k).encode(st.staticBuf, v, typ).Ok?;
    }
  }

  lemma AlignedSum(a: nat, m: nat, d: nat)
    requires d % WORD == 0
    ensures (a + WORD * m + d) % WORD == a % WORD
  {
    var q := d / WORD;
    assert d == WORD * q;
    assert a + WORD * m + d == a + WORD * (m + q);
  }

  /** The length invariant: with parsers that append whole words, `pack`
      adds a whole number of words to the prefix; without a prefix its output
      length is a multiple of a word. */
  lemma PackedAligned<V(!new)>(reg: Registry<V>, types: seq<string>, values: seq<V>, prefix: seq<byte>)
    requires Appending(reg) && WordAligned(reg)
    requires PackSpec(reg, types, values, prefix).Ok?
    ensures |PackSpec(reg, types, values, prefix).value| % WORD == |prefix| % WORD
  {
    var st := Walk(reg, types, values, |types|).value;
    WalkBothAligned(reg, types, values, |types|);
    WalkPatchesPlaced(reg, types, values, |types|);
    ApplyAllLength(st.staticBuf, st.patches);
    var q := |st.staticBuf| / WORD;
    assert |st.staticBuf| == WORD * q;
    AlignedSum(|prefix|, q, |st.dynamicBuf|);
  }

  /** The packed output of a successful `pack` without prefix. */
  function Packed<V>(reg: Registry<V>, types: seq<string>, values: seq<V>): seq<byte>
    requires PackSpec(reg, types, values, []).Ok?
  {
    PackSpec(reg, types, values, []).value
  }

  /** On the bytes alone: in `patched static ++ dynamic`, the word at a
      patch slot reads back as the static length plus the patch's dynamic
      offset, and from that offset on the output is the dynamic region from
      the patch's offset on. */
  lemma SlotReadsBack(st: PackState, slot: Patch, out: seq<byte>)
    requires Spaced(st.patches) && InBounds(st.patches, |st.staticBuf|)
    requires slot in st.patches && slot.dynOffset <= |st.dynamicBuf|
    requires out == ApplyAll(st.staticBuf, st.patches) + st.dynamicBuf
    requires |out| < WordSpace
    ensures slot.staticOffset + WORD <= |st.staticBuf|
    ensures |st.staticBuf| + slot.dynOffset <= |out|
    ensures FromBytes(out[slot.staticOffset..slot.staticOffset + WORD]) == |st.staticBuf| + slot.dynOffset
    ensures out[|st.staticBuf| + slot.dynOffset..] == st.dynamicBuf[slot.dynOffset..]
  {
    var patched := ApplyAll(st.staticBuf, st.patches);
    PatchedSlots(st.staticBuf, st.patches);
    var pointer := |st.staticBuf| + slot.dynOffset;
    var w := out[slot.staticOffset..slot.staticOffset + WORD];
    assert w == patched[slot.staticOffset..slot.staticOffset + WORD];
    assert w == ToWord(pointer);
    WordRoundTrip(pointer);
    DropAfter(patched, st.dynamicBuf, slot.dynOffset);
  }

  lemma DropAfter(a: seq<byte>, b: seq<byte>, k: nat)
    requires k <= |b|
    ensures (a + b)[|a| + k..] == b[k..]
  {
  }

  /** The pass around a dynamic element `e`: the pass succeeds up to and
      including `e`, `e` recorded the patch for its own word, that patch is
      among the final ones, and `e`'s encoding stays in the final dynamic
      region where it was appended. */
  lemma DynamicElementPatched<V(!new)>(reg: Registry<V>, types: seq<string>, values: seq<V>, e: nat)
    requires Conforming(reg)
    requires |types| == |values| && Walk(reg, types, values, |types|).Ok?
    requires e < |types| && IsDynamicAt(reg, types, e)
    ensures WalkPrefixOkAt(reg, types, values, e)
    ensures var before, after := Walk(reg, types, values, e).value, Walk(reg, types, values, e + 1).value;
      var st := Walk(reg, types, values, |types|).value;
      Patch(WORD * e, |before.dynamicBuf|) in st.patches &&
      before.dynamicBuf <= after.dynamicBuf && after.dynamicBuf <= st.dynamicBuf
  {
    var n := |types|;
    ConformingAppends(reg);
    ConformingHeadWords(reg);
    WalkMonotone(reg, types, values, e + 1, n);
    WalkPrefixOk(reg, types, values, e, n);
    var before := Walk(reg, types, values, e).value;
    var after := Walk(reg, types, values, e + 1).value;
    var st := Walk(reg, types, values, n).value;
    assert Step(reg, before, types[e], values[e]) == Ok(after);
    WalkLayout(reg, types, values, e);
    StepEffect(reg, before, types[e], values[e]);
    var slot := Patch(WORD * e, |before.dynamicBuf|);
    assert after.patches == before.patches + [slot];
    PrefixMember(after.patches, st.patches, |before.patches|);
  }

  lemma PrefixMember<T>(s: seq<T>, t: seq<T>, i: nat)
    requires s <= t && i < |s|
    ensures s[i] in t
  {
    assert t[i] == s[i];
  }

  /** A successful `pack` without prefix is the patched static region
      followed by the dynamic region. */
  lemma PackedIsRegions<V>(reg: Registry<V>, types: seq<string>, values: seq<V>)
    requires PackSpec(reg, types, values, []).Ok?
    ensures |types| == |values| && Walk(reg, types, values, |types|).Ok?
    ensures var st := Walk(reg, types, values, |types|).value;
      Packed(reg, types, values) == ApplyAll(st.staticBuf, st.patches) + st.dynamicBuf
  {
    var st := Walk(reg, types, values, |types|).value;
    assert [] + ApplyAll(st.staticBuf, st.patches) + st.dynamicBuf == ApplyAll(st.staticBuf, st.patches) + st.dynamicBuf;
  }

  /** Pointer absoluteness: the word of dynamic element `e` holds the size of
      the static region (one word per element) plus the length of the dynamic
      region before `e`, and the output read from that offset begins with
      the bytes `e`'s parser appended for it. */
  lemma PointerLandsOnEncoding<V(!new)>(reg: Registry<V>, types: seq<string>, values: seq<V>, e: nat)
    requires Conforming(reg)
    requires PackSpec(reg, types, values, []).Ok?
    requires |Packed(reg, types, values)| < WordSpace
    requires e < |types| && IsDynamicAt(reg, types, e)
    ensures WalkPrefixOkAt(reg, types, values, e)
    ensures var out := Packed(reg, types, values);
      var before, after := Walk(reg, types, values, e).value, Walk(reg, types, values, e + 1).value;
      var pointer := WORD * |types| + |before.dynamicBuf|;
      WORD * e + WORD <= |out| && pointer <= |out| &&
      FromBytes(out[WORD * e..WORD * e + WORD]) == pointer &&
      |before.dynamicBuf| <= |after.dynamicBuf| &&
      after.dynamicBuf[|before.dynamicBuf|..] <= out[pointer..]
  {
    var n := |types|;
    DynamicElementPatched(reg, types, values, e);
    var st := Walk(reg, types, values, n).value;
    var before, after := Walk(reg, types, values, e).value, Walk(reg, types, values, e + 1).value;
    PackedIsRegions(reg, types, values);
    ConformingAppends(reg);
    ConformingHeadWords(reg);
    WalkPatchesPlaced(reg, types, values, n);
    WalkLayout(reg, types, values, n);
    PointerInRegions(st, before.dynamicBuf, after.dynamicBuf, e, n, Packed(reg, types, values));
  }

  /** The pointer argument on the regions alone. */
  lemma PointerInRegions(st: PackState, before: seq<byte>, after: seq<byte>, e: nat, n: nat, out: seq<byte>)
    requires Spaced(st.patches) && InBounds(st.patches, |st.staticBuf|)
    requires forall p :: p in st.patches ==> p.dynOffset <= |st.dynamicBuf|
    requires |st.staticBuf| == WORD * n
    requires Patch(WORD * e, |before|) in st.patches
    requires before <= after && after <= st.dynamicBuf
    requires out == ApplyAll(st.staticBuf, st.patches) + st.dynamicBuf
    requires |out| < WordSpace
    ensures WORD * e + WORD <= |out| && WORD * n + |before| <= |out|
    ensures FromBytes(out[WORD * e..WORD * e + WORD]) == WORD * n + |before|
    ensures after[|before|..] <= out[WORD * n + |before|..]
  {
    var slot := Patch(WORD * e, |before|);
    SlotReadsBack(st, slot, out);
    DropPrefix(after, st.dynamicBuf, |before|);
  }

  lemma DropPrefix(a: seq<byte>, b: seq<byte>, k: nat)
    requires a <= b && k <= |a|
    ensures a[k..] <= b[k..]
  {
    assert b[k..][..|a| - k] == a[k..];
  }

  /** `Walk` succeeds on the first `e` and `e + 1` elements. */
  ghost predicate WalkPrefixOkAt<V>(reg: Registry<V>, types: seq<string>, values: seq<V>, e: nat)
  {
    e < |types| && e < |values| &&
    Walk(reg, types, values, e).Ok? && Walk(reg, types, values, e + 1).Ok?
  }

  /** Two word-aligned offsets of different words do not overlap. */
  lemma WordsApart(a: nat, e: nat)
    requires a % WORD == 0 && a / WORD != e
    ensures a + WORD <= WORD * e || WORD * e + WORD <= a
  {
    var q := a / WORD;
    assert a == WORD * q;
    if q < e {
      assert WORD * (q + 1) <= WORD * e;
    } else {
      assert WORD * (e + 1) <= WORD * q;
    }
  }

  /** On the bytes alone: a word of the static region that no patch
      overlaps reaches the output unchanged. */
  lemma StaticInRegions(st: PackState, enc: seq<byte>, off: nat, out: seq<byte>)
    requires Spaced(st.patches) && InBounds(st.patches, |st.staticBuf|)
    requires forall p :: p in st.patches ==> p.staticOffset + WORD <= off || off + WORD <= p.staticOffset
    requires |enc| == off + WORD && enc <= st.staticBuf
    requires out == ApplyAll(st.staticBuf, st.patches) + st.dynamicBuf
    ensures off < |out| && enc[off..] <= out[off..]
  {
    SpacedDisjoint(st.patches);
    var patched := ApplyAll(st.staticBuf, st.patches);
    ApplyAllAt(st.staticBuf, st.patches, off);
    forall i | off <= i < off + WORD
      ensures out[i] == enc[i]
    {
      ApplyAllAt(st.staticBuf, st.patches, i);
      assert forall p :: p in st.patches ==> !Covers(p, i);
      assert patched[i] == st.staticBuf[i];
    }
  }

  /** A static element is decoded from its own word of the packed output. */
  lemma StaticElementRoundTrip<V(!new)>(reg: Registry<V>, types: seq<string>, values: seq<V>, e: nat)
    requires Conforming(reg)
    requires PackSpec(reg, types, values, []).Ok?
    requires e < |types| && !IsDynamicAt(reg, types, e)
    ensures e < |values| && Element(reg, types[e], Packed(reg, types, values), e) == Ok(values[e])
  {
    var n := |types|;
    PackedIsRegions(reg, types, values);
    ConformingAppends(reg);
    ConformingHeadWords(reg);
    WalkMonotone(reg, types, values, e + 1, n);
    WalkPrefixOk(reg, types, values, e, n);
    var before, after := Walk(reg, types, values, e).value, Walk(reg, types, values, e + 1).value;
    var st := Walk(reg, types, values, n).value;
    var typ, v := types[e], values[e];
    assert Step(reg, before, typ, v) == Ok(after);
    StepEffect(reg, before, typ, v);
    var k := GetParser(reg, typ).value;
    assert !IsDynamicParser(reg(k), typ);
    assert reg(k).encode(before.staticBuf, v, typ) == Ok(after.staticBuf);
    WalkLayout(reg, types, values, e);
    assert SingleWordStatic(reg(k)) && SelfDelimiting(reg(k));
    PatchesMissStatic(reg, types, values, e);
    var out := Packed(reg, types, values);
    StaticInRegions(st, after.staticBuf, WORD * e, out);
  }

  /** No patch overlaps the word of a static element. */
  lemma PatchesMissStatic<V(!new)>(reg: Registry<V>, types: seq<string>, values: seq<V>, e: nat)
    requires HeadWords(reg)
    requires |types| == |values| && Walk(reg, types, values, |types|).Ok?
    requires e < |types| && !IsDynamicAt(reg, types, e)
    ensures var st := Walk(reg, types, values, |types|).value;
      Spaced(st.patches) && InBounds(st.patches, |st.staticBuf|) &&
      forall p :: p in st.patches ==> p.staticOffset + WORD <= WORD * e || WORD * e + WORD <= p.staticOffset
  {
    var n := |types|;
    var st := Walk(reg, types, values, n).value;
    HeadWordsAppend(reg);
    WalkLayout(reg, types, values, n);
    WalkPatchesPlaced(reg, types, values, n);
    forall p | p in st.patches
      ensures p.staticOffset + WORD <= WORD * e || WORD * e + WORD <= p.staticOffset
    {
      assert DynamicSlot(reg, types, p.staticOffset, n);
      WordsApart(p.staticOffset, e);
    }
  }

  /** A dynamic element is decoded from where the pointer in its word leads. */
  lemma DynamicElementRoundTrip<V(!new)>(reg: Registry<V>, types: seq<string>, values: seq<V>, e: nat)
    requires Conforming(reg)
    requires PackSpec(reg, types, values, []).Ok?
    requires |Packed(reg, types, values)| < WordSpace
    requires e < |types| && IsDynamicAt(reg, types, e)
    ensures e < |values| && Element(reg, types[e], Packed(reg, types, values), e) == Ok(values[e])
  {
    PointerLandsOnEncoding(reg, types, values, e);
    var before, after := Walk(reg, types, values, e).value, Walk(reg, types, values, e + 1).value;
    var typ, v := types[e], values[e];
    var k := GetParser(reg, typ).value;
    assert Step(reg, before, typ, v) == Ok(after);
    assert reg(k).encode(before.dynamicBuf, v, typ) == Ok(after.dynamicBuf);
    assert SelfDelimiting(reg(k));
    var out := Packed(reg, types, values);
    var window := out[WORD * e..];
    assert FirstWord(window) == out[WORD * e..WORD * e + WORD];
  }

  /** Every element of the packed output decodes to the value packed for it. */
  lemma ElementRoundTrip<V(!new)>(reg: Registry<V>, types: seq<string>, values: seq<V>, e: nat)
    requires Conforming(reg)
    requires PackSpec(reg, types, values, []).Ok?
    requires |Packed(reg, types, values)| < WordSpace
    requires e < |types|
    ensures e < |values| && Element(reg, types[e], Packed(reg, types, values), e) == Ok(values[e])
  {
    if IsDynamicAt(reg, types, e) {
      DynamicElementRoundTrip(reg, types, values, e);
    } else {
      StaticElementRoundTrip(reg, types, values, e);
    }
  }

  /** The round trip: with parsers that meet the parser contract, `unpack`
      gives back exactly the values `pack` was given, whenever `pack`
      succeeds and its output is short enough for every pointer to fit in a
      word. */
  lemma PackUnpackRoundTrip<V(!new)>(reg: Registry<V>, types: seq<string>, values: seq<V>)
    requires Conforming(reg)
    requires PackSpec(reg, types, values, []).Ok?
    requires |Packed(reg, types, values)| < WordSpace
    ensures UnpackSpec(reg, types, Packed(reg, types, values)) == Ok(values)
  {
    var out := Packed(reg, types, values);
    forall i | 0 <= i < |types|
      ensures Element(reg, types[i], out, i) == Ok(values[i])
    {
      ElementRoundTrip(reg, types, values, i);
    }
    UnpackWhenAllDecode(reg, types, out, |types|);
    var r := UnpackSpec(reg, types, out).value;
    forall i | 0 <= i < |types|
      ensures r[i] == values[i]
    {
      UnpackedAt(reg, types, out, |types|, i);
    }
    assert |types| == |values| && |r| == |values|;
    assert r == values;
  }
}

=== FILE: standin.dfy ===
/** A small registry that meets the parser contract: an unsigned 256-bit
    number parser (static, one word) and a byte-string parser (dynamic: a
    length word, the bytes, zero padding to a word boundary). It shows that
    the contract the engine's round trip rests on can be met. */
module StandIn {
  import opened Words
  import opened Registry
  import opened Packer
  import opened Unpacker
  import opened RoundTrip

  /** The values the stand-in parsers understand. */
  datatype Sample = Num(n: nat) | Blob(data: seq<byte>)

  /** Zero bytes needed to bring `len` up to a multiple of a word. */
  function Padding(len: nat): (r: nat)
    ensures r < WORD && (len + r) % WORD == 0
  {
    (WORD - len % WORD) % WORD
  }

  /** "uint" followed by anything. */
  predicate IsUint(t: string)
  {
    |t| >= 4 && t[..4] == "uint"
  }

  function EncodeNum(buf: seq<byte>, v: Sample, t: string): Result<seq<byte>>
  {
    if v.Num? && v.n < WordSpace then Ok(buf + ToWord(v.n))
    else Err(CodecFailure("not an unsigned 256-bit number"))
  }

  function DecodeNum(w: seq<byte>, t: string, skip: nat): Result<Sample>
  {
    if |w| < WORD then Err(OutOfRange) else Ok(Num(FromBytes(w[..WORD])))
  }

  function EncodeBlob(buf: seq<byte>, v: Sample, t: string): Result<seq<byte>>
  {
    if v.Blob? && |v.data| < WordSpace then
      Ok(buf + ToWord(|v.data|) + v.data + Zeros(Padding(|v.data|)))
    else Err(CodecFailure("not a byte string"))
  }

  function DecodeBlob(w: seq<byte>, t: string, skip: nat): Result<Sample>
  {
    if |w| < WORD then Err(OutOfRange)
    else
      var len := FromBytes(w[..WORD]);
      if WORD + len <= |w| then Ok(Blob(w[WORD..WORD + len])) else Err(OutOfRange)
  }

  function Rejecting(buf: seq<byte>, v: Sample, t: string): Result<seq<byte>>
  {
    Err(CodecFailure("not part of the stand-in registry"))
  }

  function DecodeNothing(w: seq<byte>, t: string, skip: nat): Result<Sample>
  {
    Err(CodecFailure("not part of the stand-in registry"))
  }

  const NumberParser: Parser<Sample> := Parser(EncodeNum, DecodeNum, Fixed(false), Some(IsUint))
  const BytesParser: Parser<Sample> := Parser(EncodeBlob, DecodeBlob, Fixed(true), None)
  const Unsupported: Parser<Sample> := Parser(Rejecting, DecodeNothing, Fixed(false), None)

  /** The stand-in registry: numbers and byte strings; every other kind fails. */
  function SampleRegistry(k: ParserKind): Parser<Sample>
  {
    match k
    case Number => NumberParser
    case Bytes => BytesParser
    case _ => Unsupported
  }

  /** The number parser meets the parser contract. */
  lemma NumberConforms()
    ensures AppendOnly(NumberParser) && SingleWordStatic(NumberParser) && SelfDelimiting(NumberParser)
  {
    forall buf, v: Sample, t, w, skip: nat |
      EncodeNum(buf, v, t).Ok? && |buf| <= |EncodeNum(buf, v, t).value| &&
      EncodeNum(buf, v, t).value[|buf|..] <= w
      ensures DecodeNum(w, t, skip) == Ok(v)
    {
      var out := EncodeNum(buf, v, t).value;
      assert out[|buf|..] == ToWord(v.n);
      assert w[..WORD] == ToWord(v.n);
      WordRoundTrip(v.n);
    }
  }

  /** The byte-string parser meets the parser contract. */
  lemma BytesConforms()
    ensures AppendOnly(BytesParser) && SingleWordStatic(BytesParser) && SelfDelimiting(BytesParser)
  {
    forall buf, v: Sample, t, w, skip: nat |
      EncodeBlob(buf, v, t).Ok? && |buf| <= |EncodeBlob(buf, v, t).value| &&
      EncodeBlob(buf, v, t).value[|buf|..] <= w
      ensures DecodeBlob(w, t, skip) == Ok(v)
    {
      var out := EncodeBlob(buf, v, t).value;
      var len := |v.data|;
      var tail := ToWord(len) + v.data + Zeros(Padding(len));
      assert out[|buf|..] == tail;
      assert w[..|tail|] == tail;
      assert w[..WORD] == ToWord(len);
      WordRoundTrip(len);
      assert w[WORD..WORD + len] == v.data;
    }
  }

  /** The stand-in registry meets the parser contract. */
  lemma SampleConforming()
    ensures Conforming(SampleRegistry)
  {
    NumberConforms();
    BytesConforms();
  }

  /** Both stand-in parsers append whole words: the bytes parser pads its
      data to a word boundary. */
  lemma SampleWordAligned()
    ensures WordAligned(SampleRegistry)
  {
    forall buf, v: Sample, t | EncodeBlob(buf, v, t).Ok?
      ensures |EncodeBlob(buf, v, t).value| % WORD == |buf| % WORD
    {
      var len := |v.data|;
      AlignedSum(|buf|, 1, len + Padding(len));
    }
    forall buf, v: Sample, t | EncodeNum(buf, v, t).Ok?
      ensures |EncodeNum(buf, v, t).value| % WORD == |buf| % WORD
    {
      AlignedSum(|buf|, 1, 0);
    }
  }

  /** With the stand-in registry, the output of `pack` is a whole number of words. */
  lemma SamplePackedAligned(types: seq<string>, values: seq<Sample>)
    requires PackSpec(SampleRegistry, types, values, []).Ok?
    ensures |Packed(SampleRegistry, types, values)| % WORD == 0
  {
    SampleConforming();
    SampleWordAligned();
    PackedAligned(SampleRegistry, types, values, []);
  }

  /** A registered key resolves to its own parser. */
  lemma SampleKeyResolution()
    ensures GetParser(SampleRegistry, "bytes") == Ok(Bytes)
  {
    GetParserResolution(SampleRegistry, "bytes");
  }

  /** Neither example type string below is a registered key. */
  lemma NotAKey(typ: string)
    requires typ == "uint256" || typ == "int8"
    ensures forall k :: Key(k) != typ
  {
  }

  /** Only the number parser claims type strings, exactly those starting with "uint". */
  lemma SampleAccepts(typ: string)
    ensures forall k :: Accepts(SampleRegistry(k), typ) <==> k == Number && IsUint(typ)
  {
  }

  /** An unregistered type string falls through to the first parser whose
      `isType` accepts it. */
  lemma SampleFallbackResolution()
    ensures GetParser(SampleRegistry, "uint256") == Ok(Number)
  {
    NotAKey("uint256");
    assert IsUint("uint256") by {
      assert "uint256"[..4] == "uint";
    }
    SampleAccepts("uint256");
    GetParserResolution(SampleRegistry, "uint256");
  }

  /** A type string no parser claims is unsupported. */
  lemma SampleUnsupported()
    ensures GetParser(SampleRegistry, "int8") == Err(UnsupportedType("int8"))
  {
    NotAKey("int8");
    assert !IsUint("int8") by {
      assert "int8"[..4][0] != "uint"[0];
    }
    SampleAccepts("int8");
    GetParserResolution(SampleRegistry, "int8");
  }

  /** With the stand-in registry, `unpack` inverts `pack`. */
  lemma SampleRoundTrip(types: seq<string>, values: seq<Sample>)
    requires PackSpec(SampleRegistry, types, values, []).Ok?
    requires |Packed(SampleRegistry, types, values)| < WordSpace
    ensures UnpackSpec(SampleRegistry, types, Packed(SampleRegistry, types, values)) == Ok(values)
  {
    SampleConforming();
    PackUnpackRoundTrip(SampleRegistry, types, values);
  }
}

=== FILE: unpacker.dfy ===
/** `unpack` of `src/packer.ts`: a word cursor walks the buffer, one word per
    type; a static element is decoded from the cursor's position, a dynamic
    one from the offset its word holds. */
module Unpacker {
  import opened Words
  import opened Registry

  /** `value.subarray(0, 32)`: the first word of a window, or the whole
      window when it is shorter than a word. */
  function FirstWord(window: seq<byte>): (r: seq<byte>)
    ensures r <= window
    ensures |r| == if |window| < WORD then |window| else WORD
  {
    if |window| <= WORD then window else window[..WORD]
  }

  /** `buffer.subarray(pointer)`: empty when the pointer is past the end. */
  function From(buffer: seq<byte>, pointer: nat): (r: seq<byte>)
    ensures pointer <= |buffer| ==> buffer[..pointer] + r == buffer
    ensures pointer > |buffer| ==> r == []
  {
    if pointer <= |buffer| then buffer[pointer..] else []
  }

  /** The element at cursor word `i`. The cursor being past the end is
      reported before the type is resolved. The window at the cursor is the
      rest of the buffer from there, and `skip` is the cursor's word index. */
  function Element<V>(reg: Registry<V>, typ: string, buffer: seq<byte>, i: nat): Result<V>
  {
    if WORD * i >= |buffer| then Err(OutOfRange)
    else match GetParser(reg, typ)
      case Err(e) => Err(e)
      case Ok(k) =>
        var window := buffer[WORD * i..];
        if IsDynamicParser(reg(k), typ) then
          reg(k).decode(From(buffer, FromBytes(FirstWord(window))), typ, i)
        else
          reg(k).decode(window, typ, i)
  }

  /** The values of the first `n` types, or the first failure. */
  function UnpackPrefix<V>(reg: Registry<V>, types: seq<string>, buffer: seq<byte>, n: nat): (r: Result<seq<V>>)
    requires n <= |types|
    ensures r.Ok? ==> |r.value| == n
  {
    if n == 0 then Ok([])
    else match UnpackPrefix(reg, types, buffer, n - 1)
      case Err(e) => Err(e)
      case Ok(vs) =>
        match Element(reg, types[n - 1], buffer, n - 1)
        case Err(e) => Err(e)
        case Ok(v) => Ok(vs + [v])
  }

  /** The result of `unpack(types, buffer)`. */
  function UnpackSpec<V>(reg: Registry<V>, types: seq<string>, buffer: seq<byte>): Result<seq<V>>
  {
    UnpackPrefix(reg, types, buffer, |types|)
  }

  /** `unpack`: one value per type, in order; every type needs a word of
      the buffer under the cursor. */
  method Unpack<V>(reg: Registry<V>, types: seq<string>, buffer: seq<byte>) returns (r: Result<seq<V>>)
    ensures r == UnpackSpec(reg, types, buffer)
    ensures r.Ok? ==> |r.value| == |types|
    ensures r.Ok? ==> |types| == 0 || WORD * (|types| - 1) < |buffer|
  {
    var values: seq<V> := [];
    var cursor := 0;
    for i := 0 to |types|
      invariant cursor == WORD * i
      invariant UnpackPrefix(reg, types, buffer, i) == Ok(values)
      invariant i > 0 ==> WORD * (i - 1) < |buffer|
    {
      if cursor >= |buffer| {
        UnpackFailureSticks(reg, types, buffer, i + 1, |types|);
        return Err(OutOfRange);
      }
      var window := buffer[cursor..];
      var typ := types[i];
      var kind;
      match GetParser(reg, typ) {
        case Err(e) =>
          UnpackFailureSticks(reg, types, buffer, i + 1, |types|);
          return Err(e);
        case Ok(k) => kind := k;
      }
      var parser := reg(kind);
      var decoded;
      if IsDynamicParser(parser, typ) {
        var pointer := FromBytes(FirstWord(window));
        decoded := parser.decode(From(buffer, pointer), typ, i);
      } else {
        decoded := parser.decode(window, typ, i);
      }
      match decoded {
        case Err(e) =>
          UnpackFailureSticks(reg, types, buffer, i + 1, |types|);
          return Err(e);
        case Ok(v) => values := values + [v];
      }
      cursor := cursor + WORD;
    }
    r := Ok(values);
  }

  /** Once an element fails, `unpack` reports that failure. */
  lemma {:induction false} UnpackFailureSticks<V>(reg: Registry<V>, types: seq<string>, buffer: seq<byte>, n: nat, m: nat)
    requires n <= m <= |types|
    requires UnpackPrefix(reg, types, buffer, n).Err?
    ensures UnpackPrefix(reg, types, buffer, m) == UnpackPrefix(reg, types, buffer, n)
  {
    if m > n {
      UnpackFailureSticks(reg, types, buffer, n, m - 1);
    }
  }

  /** The first element that fails decides the outcome: when the elements
      before `j` decode and the cursor is past the end at `j`, `unpack`
      reports `OutOfRange` whatever the type at `j`; when the cursor is
      still inside and the type at `j` resolves to no parser, it reports
      that type as unsupported. */
  lemma UnpackFirstFailure<V>(reg: Registry<V>, types: seq<string>, buffer: seq<byte>, j: nat)
    requires j < |types|
    requires UnpackPrefix(reg, types, buffer, j).Ok?
    ensures WORD * j >= |buffer| ==> UnpackSpec(reg, types, buffer) == Err(OutOfRange)
    ensures WORD * j < |buffer| && GetParser(reg, types[j]).Err? ==>
              UnpackSpec(reg, types, buffer) == Err(UnsupportedType(types[j]))
    ensures WORD * j < |buffer| && GetParser(reg, types[j]).Ok? ==>
              var typ := types[j];
              var p := reg(GetParser(reg, typ).value);
              var window := buffer[WORD * j..];
              var w := if IsDynamicParser(p, typ) then From(buffer, FromBytes(FirstWord(window))) else window;
              p.decode(w, typ, j).Err? ==> UnpackSpec(reg, types, buffer) == Err(p.decode(w, typ, j).error)
  {
    if UnpackPrefix(reg, types, buffer, j + 1).Err? {
      UnpackFailureSticks(reg, types, buffer, j + 1, |types|);
    }
  }

  /** When `unpack` succeeds, each element decoded at its own cursor word,
      and the i-th value is the i-th element's. */
  lemma {:induction false} UnpackedAt<V>(reg: Registry<V>, types: seq<string>, buffer: seq<byte>, n: nat, i: nat)
    requires i < n <= |types|
    requires UnpackPrefix(reg, types, buffer, n).Ok?
    ensures Element(reg, types[i], buffer, i) == Ok(UnpackPrefix(reg, types, buffer, n).value[i])
  {
    var prev := UnpackPrefix(reg, types, buffer, n - 1);
    var el := Element(reg, types[n - 1], buffer, n - 1);
    assert prev.Ok? && el.Ok?;
    assert UnpackPrefix(reg, types, buffer, n).value == prev.value + [el.value];
    if i < n - 1 {
      UnpackedAt(reg, types, buffer, n - 1, i);
    }
  }

  /** When every element decodes at its own cursor word, `unpack` succeeds. */
  lemma {:induction false} UnpackWhenAllDecode<V>(reg: Registry<V>, types: seq<string>, buffer: seq<byte>, n: nat)
    requires n <= |types|
    requires forall i :: 0 <= i < n ==> Element(reg, types[i], buffer, i).Ok?
    ensures UnpackPrefix(reg, types, buffer, n).Ok?
  {
    if n > 0 {
      UnpackWhenAllDecode(reg, types, buffer, n - 1);
      assert Element(reg, types[n - 1], buffer, n - 1).Ok?;
    }
  }
}

=== FILE: words.dfy ===
/** Byte and 32-byte word utilities the packing engine relies on: the
    big-endian word written for a pointer (`toBuffer`) and the number read
    back from one (`toNumber`). */
module Words {

  type byte = x: int | 0 <= x < 256

  /** Size in bytes of one ABI word. */
  const WORD: nat := 32

  /** 256 to the power `k`: the number of distinct `k`-byte strings. */
  function Pow256(k: nat): (r: nat)
    ensures r >= 1
  {
    if k == 0 then 1 else 256 * Pow256(k - 1)
  }

  /** `n` written big-endian in exactly `k` bytes (the high-order part beyond
      `k` bytes is dropped). */
  function ToBytes(n: nat, k: nat): (r: seq<byte>)
    ensures |r| == k
  {
    if k == 0 then [] else ToBytes(n / 256, k - 1) + [n % 256]
  }

  /** The unsigned big-endian number a byte string denotes. */
  function FromBytes(s: seq<byte>): (r: nat)
    ensures r < Pow256(|s|)
  {
    if s == [] then 0
    else
      var hi := FromBytes(s[..|s| - 1]);
      assert hi <= Pow256(|s| - 1) - 1;
      hi * 256 + s[|s| - 1]
  }

  /** The number of distinct words; a pointer must stay below it to be
      read back as written. */
  const WordSpace: nat := Pow256(WORD)

  /** Byte `j` of `n`, counting from the least significant. */
  function ByteAt(n: nat, j: nat): byte
  {
    if j == 0 then n % 256 else ByteAt(n / 256, j - 1)
  }

  /** `toBuffer`: a number as one 32-byte big-endian word. */
  function ToWord(n: nat): (r: seq<byte>)
    ensures |r| == WORD
  {
    seq(WORD, i requires 0 <= i < WORD => ByteAt(n, WORD - 1 - i))
  }

  /** The word is the 32-byte big-endian form of `n`. */
  lemma ToWordBigEndian(n: nat)
    ensures ToWord(n) == ToBytes(n, WORD)
  {
    forall i | 0 <= i < WORD
      ensures ToBytes(n, WORD)[i] == ByteAt(n, WORD - 1 - i)
    {
      ToBytesAt(n, WORD, i);
    }
  }

  lemma {:induction false} ToBytesAt(n: nat, k: nat, i: nat)
    requires i < k
    ensures ToBytes(n, k)[i] == ByteAt(n, k - 1 - i)
  {
    if i < k - 1 {
      ToBytesAt(n / 256, k - 1, i);
    }
  }

  /** `toNumber` inverts `toBuffer` on every pointer below `WordSpace`. */
  lemma WordRoundTrip(n: nat)
    requires n < WordSpace
    ensures FromBytes(ToWord(n)) == n
  {
    ToWordBigEndian(n);
    FromToBytes(n, WORD);
  }

  /** `n` zero bytes. */
  function Zeros(n: nat): (r: seq<byte>)
    ensures |r| == n && forall i :: 0 <= i < n ==> r[i] == 0
  {
    seq(n, _ => 0)
  }

  lemma DivBound(n: nat, p: nat)
    requires n < 256 * p
    ensures n / 256 < p
  {
  }

  lemma DivModByte(hi: nat, b: byte)
    ensures (hi * 256 + b) / 256 == hi && (hi * 256 + b) % 256 == b
  {
  }

  /** Reading back a word written for `n` yields `n`, when `n` fits. */
  lemma {:induction false} FromToBytes(n: nat, k: nat)
    requires n < Pow256(k)
    ensures FromBytes(ToBytes(n, k)) == n
  {
    if k > 0 {
      var s := ToBytes(n, k);
      assert s[..k - 1] == ToBytes(n / 256, k - 1);
      DivBound(n, Pow256(k - 1));
      FromToBytes(n / 256, k - 1);
    }
  }

  /** Writing back the number a byte string denotes gives the same bytes. */
  lemma {:induction false} ToFromBytes(s: seq<byte>)
    ensures ToBytes(FromBytes(s), |s|) == s
  {
    if s != [] {
      var k := |s|;
      var hi := FromBytes(s[..k - 1]);
      DivModByte(hi, s[k - 1]);
      ToFromBytes(s[..k - 1]);
      assert s == s[..k - 1] + [s[k - 1]];
    }
  }
}
